=== FILE: README.md ===
# PointSpire client store and helpers, in Dafny

PointSpire is a task manager: a React client keeps the signed-in user's
projects and tasks (both "completables") in memory, lets components subscribe
to changes of one completable, and talks to an Express server over a small
REST API. This project models the parts of that system that are pure logic:

- `ClientData` (client_data.dfy): the client's static store — the `projects`
  and `tasks` maps keyed by `_id`, and the two listener tables
  `completableId → listenerId → callback`. Every public method is a pure
  state transition; the methods that notify also return the set of
  `Delivery` values (which callback received which payload). The entity maps
  start out `undefined`, so reading or writing one before `setProjects` /
  `setTasks` throws a TypeError; the model returns `Failure(NotLoaded(kind))`
  and a failed call changes nothing. `getProjects` / `getTasks` are
  `ClientData.GetAll`.
- `ClientDataProperties` and `ClientDataRuns` (client_data_properties.dfy,
  client_data_runs.dfy): laws of the store and of whole call sequences —
  last registration wins; removing a listener undoes adding it, except
  that an entry the add created stays behind empty; after a deletion
  nothing more is delivered about that completable until someone
  subscribes to it again; reads are stable until a write.
- `Completables` (completable.dfy): the `Completable` record shared by
  projects and tasks, with the defaults of `new Completable()`.
- `Reconcile` (reconcile.dfy): `parseReturnedDates`, `evaluateCompleted`
  and `sanitizeCompletable`. Only two requests sanitize what the server
  returns: `postNewTask` (fetchMethods.ts:347), whose caller receives the
  sanitized task, and `patchProject` (fetchMethods.ts:291), which uses the
  sanitized project only to compare it with the one it sent. getProject,
  getUser, getRequest, postNewProject, getUserData, getTestUserData,
  deleteProject, deleteTask and deleteTaskById return the server's JSON
  unsanitized; patchTask compares the unsanitized reply with
  `tasksAreEqual` (fetchMethods.ts:142-146), unlike patchProject, which
  sanitizes first. The source notes that `evaluateCompleted` is not needed
  at the moment. Fields that may hold anything after JSON decoding
  are runtime values (`JsValues.JsValue`) with JavaScript truthiness; the
  `Date` constructor is a parameter `newDate`.
- `FetchUrls` (fetch_urls.dfy): the decisions inside the fetch wrappers —
  `baseServerUrl`, `buildUrl` (including the `$` patterns that
  `String.prototype.replace` expands in its replacement string), the
  endpoint `postNewTask` posts to, and the GitHub `?code=` test at the
  start of `getUserData`.
- `FontSizeSetting` (font_size_setting.dfy): the settings dialog's
  font-size field as a state machine over `(input, error, helperText)`.
- `ServerApp` (server_app.dfy): the server's `normalizePort` and the port
  it listens on.
- `ParseInt` (parse_int.dfy): `parseInt(s, 10)` as section 19.2.5 of
  ECMA-262 defines it (trim leading white space and line terminators,
  optional sign, maximal run of ASCII digits, NaN when there is none) and
  the decimal rendering of an integer, shared by the last two modules.

Where the code and its comments or documentation part ways, the model
follows the code:

- `getCompletable` answers `undefined` for a missing id; it does not fail.
- `removeCompletableListener` leaves the completable's entry in the
  listener table even when its last listener is removed (an empty map);
  only `deleteCompletable` removes the entry.
- Callbacks are run one after another by `forEach`, with no isolation: the
  model assumes every callback returns normally.
- `buildUrl` is documented as placing the id at the `~`, but it calls
  `String.prototype.replace` with the id as the replacement string, so an
  id containing `$$`, `$&`, `` $` `` or `$'` is expanded
  (`FetchUrls.BuildUrlExpandsMatchPattern`: the id `$&` leaves every URL
  unchanged). The ids the client passes are MongoDB ObjectId hex strings,
  which never contain `$`, so the URL lemmas are stated for `$`-free ids.
- `validateInput` accepts any text `parseInt` can read a number from, so
  `"12.5"` and `" 7px"` are accepted and set the size to 12 and 7.

## Model

| member | source | states |
|---|---|---|
| ClientData.Notify | client/src/main/logic/ClientData.ts:47-65 | every callback registered on (kind, id) receives the payload exactly once, and nothing else receives anything; an id without registrations notifies nobody |
| ClientData.DeliveryCount | client/src/main/logic/ClientData.ts:60-63 | one delivery per registered listener id: the number of deliveries equals the number of registrations |
| ClientData.SetAll | client/src/main/logic/ClientData.ts:69-77 | replacing one kind's map installs exactly that map, leaves the other kind and both listener tables alone, and notifies nobody |
| ClientData.SetProjects | client/src/main/logic/ClientData.ts:75-77 | setProjects is the whole-map replacement for the project kind |
| ClientData.SetTasks | client/src/main/logic/ClientData.ts:131-133 | setTasks is the whole-map replacement for the task kind |
| ClientData.GetAll | client/src/main/logic/ClientData.ts:88-90 | getProjects and getTasks return the kind's whole map as currently assigned, undefined before the first assignment |
| ClientDataProperties.GetAllAfterSetAll | client/src/main/logic/ClientData.ts:131-137 | the getter of a kind returns exactly the map its setter last installed, and setting one kind's map leaves the other kind's getter unchanged |
| ClientData.GetCompletable | client/src/main/logic/ClientData.ts:92-97 | throws exactly when the kind's map was never assigned; otherwise yields the entity stored under the id, or undefined when there is none |
| ClientData.SetCompletable | client/src/main/logic/ClientData.ts:79-86 | fails exactly on an unassigned map; otherwise a later get of the id returns the new entity, every other id and the other kind read as before, listener tables are untouched, and the id's listeners each receive the entity exactly once |
| ClientData.SetProject | client/src/main/logic/ClientData.ts:127-129 | setProject behaves as setCompletable on the project kind |
| ClientData.SetTask | client/src/main/logic/ClientData.ts:139-141 | setTask behaves as setCompletable on the task kind |
| ClientData.DeleteCompletable | client/src/main/logic/ClientData.ts:99-119 | fails exactly on an unassigned map; otherwise the id reads as absent, other ids and the other kind are unchanged, every listener registered before the call receives null exactly once, and afterwards the id has no listener entry while all other entries are unchanged |
| ClientData.RemoveEntity | client/src/main/logic/ClientData.ts:116 | deleting the key makes the id read as absent and changes nothing else |
| ClientData.DropListeners | client/src/main/logic/ClientData.ts:118 | deleting the listener entry removes the id from the table and changes nothing else |
| ClientData.AddListener | client/src/main/logic/ClientData.ts:143-174 | the callback is registered under (kind, id, listener id), creating the id's entry if missing; registrations under other listener ids, other completables and the other kind are unchanged; the count grows by one exactly when the listener id was new |
| ClientData.RemoveListener | client/src/main/logic/ClientData.ts:176-193 | the listener id is no longer registered on the id, other registrations are unchanged, the id's entry is kept, and when the listener was not registered the store is unchanged |
| ClientDataProperties.AddListenerLastWins | client/src/main/logic/ClientData.ts:170-173 | registering a second callback under the same listener id replaces the first: the store is as if only the second had been added |
| ClientDataProperties.AddListenerIdempotent | client/src/main/logic/ClientData.ts:170-173 | adding the same registration twice equals adding it once |
| ClientDataProperties.RemoveListenerIdempotent | client/src/main/logic/ClientData.ts:187-192 | removing a listener twice equals removing it once |
| ClientDataProperties.RemoveUndoesAdd | client/src/main/logic/ClientData.ts:156-193 | adding a new listener then removing it restores the store, except that an entry created by the add stays behind empty |
| ClientDataProperties.DeleteThenSetNotifiesNobody | client/src/main/logic/ClientData.ts:116-118 | after a delete, setting a completable with the same id reaches no callback registered before the delete |
| ClientDataProperties.SetWithoutListenersDeliversNothing | client/src/main/logic/ClientData.ts:60 | setting a completable nobody listens to delivers nothing |
| ClientDataProperties.SetCompletableKeepsValid | client/src/main/logic/ClientData.ts:79-84 | storing a completable under its own `_id` keeps every entity keyed by its own id |
| ClientDataProperties.DeleteCompletableKeepsValid | client/src/main/logic/ClientData.ts:116 | deletion keeps every entity keyed by its own id |
| ClientDataProperties.SetAllKeepsValid | client/src/main/logic/ClientData.ts:75-77 | the whole-map setters check nothing: the keyed-by-own-id invariant survives exactly when the new map has it |
| ClientDataRuns.Apply | client/src/main/logic/ClientData.ts:47-193 | of the calls that change the store, only setCompletable (also through setProject/setTask) and deleteCompletable notify or throw, and every delivery goes to a callback registered before the call on the id concerned |
| ClientDataRuns.GetStableUntilWritten | client/src/main/logic/ClientData.ts:92-97 | over any call sequence with no whole-map replacement of that kind, no set of that id and no delete of that id, a get of the id answers as before |
| ClientDataRuns.NoDeliveryWithoutSubscription | client/src/main/logic/ClientData.ts:60-64 | while an id has no listener entry, no call sequence without a subscription to it delivers anything about it |
| ClientDataRuns.DeletedStaysSilent | client/src/main/logic/ClientData.ts:106-119 | after a delete, the id's former callbacks hear nothing more about it unless someone subscribes to it again |
| ClientDataRuns.DeleteScenario | client/src/main/logic/ClientData.ts:99-119 | two listeners on a task both receive null on its deletion; a listener added afterwards receives nothing retroactively and only the later set |
| Completables.NewCompletable | client/src/main/models/Completable.ts:4-35 | a new completable has the given id and creation time, empty subtask, prerequisite and tag lists, null dates, empty note and title, priority 0 and completed false |
| Reconcile.ParseDateField | client/src/main/logic/fetchMethods.ts:70-75 | a truthy date field becomes the Date built from it, a falsy one is kept; either way the field is date-shaped |
| Reconcile.ParseReturnedDates | client/src/main/logic/fetchMethods.ts:59-77 | start and due dates are rebuilt as Dates exactly when truthy, and every other field, completedDate included, is unchanged |
| Reconcile.EvaluateCompleted | client/src/main/logic/fetchMethods.ts:79-94 | completed becomes a boolean: kept when already boolean, false otherwise, nothing else changes |
| Reconcile.SanitizeCompletable | client/src/main/logic/fetchMethods.ts:96-109 | sanitizing is date parsing followed by completed evaluation; the result is sanitized and differs from the input only in the dates and completed |
| Reconcile.EvaluateCompletedIdempotent | client/src/main/logic/fetchMethods.ts:88-94 | evaluating completed twice equals evaluating it once |
| Reconcile.ParseReturnedDatesIdempotent | client/src/main/logic/fetchMethods.ts:68-77 | because the Date constructor copies a Date, parsing dates twice equals parsing them once |
| Reconcile.SanitizeFixedPoints | client/src/main/logic/fetchMethods.ts:104-109 | sanitizing leaves a completable unchanged exactly when it is already sanitized, and sanitizing is idempotent |
| Reconcile.FreshCompletableIsSanitized | client/src/main/models/Completable.ts:15-29 | a freshly constructed completable is already sanitized and passes through sanitizing unchanged |
| Reconcile.MissingCompletedBecomesFalse | client/src/main/logic/fetchMethods.ts:90-92 | sanitizing a document without completed yields completed false |
| FetchUrls.BaseServerUrl | client/src/main/logic/fetchMethods.ts:21-25 | the local server URL is chosen exactly for the LOCAL_DEV and LOCAL environments, the deployed one otherwise |
| FetchUrls.BaseServerUrlHasNoTilde | client/src/main/logic/fetchMethods.ts:21-25 | neither server base contains a `~`, so the placeholder in an API URL is the only one |
| FetchUrls.FindSlashTilde | client/src/main/logic/fetchMethods.ts:45 | finds the leftmost `~` preceded by `/`, or reports there is none |
| FetchUrls.BuildUrl | client/src/main/logic/fetchMethods.ts:44-51 | a missing or empty id, or a URL with no ~ right after a /, gives the URL back; otherwise the first such ~ is replaced by the id, with replace's $$, $&, $` and $' patterns expanded |
| FetchUrls.SubstituteLiteral | client/src/main/logic/fetchMethods.ts:48 | a replacement string without `$` is inserted as written |
| FetchUrls.BuildUrlSplicesId | client/src/main/logic/fetchMethods.ts:39-51 | for a non-empty `$`-free id, the first `/~` has its `~` replaced by the id and every other character, later `/~` included, is kept |
| FetchUrls.BuildUrlExpandsMatchPattern | client/src/main/logic/fetchMethods.ts:48 | the id `$&` is expanded to the matched `~`, so the URL comes back unchanged |
| FetchUrls.BuildUrlTemplate | client/src/main/logic/fetchMethods.ts:44-51 | a template prefix ending in `/` without `~`, then `~`, then any suffix, gets the id in the slot |
| FetchUrls.ApiUrlsCarryId | client/src/main/logic/fetchMethods.ts:116-120 | the project, task, user and user-projects URLs built on a base without `~` carry the id right after their collection path |
| FetchUrls.CollectionPathsAreSlots | client/src/main/logic/fetchMethods.ts:30-35 | the API collection paths end in `/` and contain no `~` |
| FetchUrls.NewTaskUrl | client/src/main/logic/fetchMethods.ts:331-337 | the new-task URL reads back as exactly the parent's kind and id |
| FetchUrls.NewTaskUrlInjective | client/src/main/logic/fetchMethods.ts:333-337 | two new-task posts share a URL only when they have the same parent kind and id |
| FetchUrls.IndexOf | client/src/main/logic/fetchMethods.ts:176 | finds the leftmost occurrence of the pattern, or reports there is none |
| FetchUrls.RestOfLine | client/src/main/logic/fetchMethods.ts:175 | a greedy `.*` takes the longest prefix free of line terminators |
| FetchUrls.GithubCode | client/src/main/logic/fetchMethods.ts:175-180 | without a `?code=` in the address the code is empty |
| FetchUrls.TakesLoginPath | client/src/main/logic/fetchMethods.ts:174-181 | the GitHub login path is taken exactly when the loggedIn cookie is not `'true'` and a non-empty code follows the first `?code=` |
| FetchUrls.GithubCodeRoundTrip | client/src/main/logic/fetchMethods.ts:175-180 | a code placed after `?code=` on an address without another `?` is read back whole, up to the first line terminator |
| FetchUrls.RestOfLineStops | client/src/main/logic/fetchMethods.ts:175 | `.*` stops exactly at the first line terminator |
| FontSizeSetting.ValidateInput | client/src/main/components/SettingsDialog/FontSizeSetting.tsx:27-38 | empty text asks for a number, text parseInt can read is accepted without helper text, anything else asks for an integer; the error flag is set exactly when parseInt yields NaN |
| FontSizeSetting.Initial | client/src/main/components/SettingsDialog/FontSizeSetting.tsx:21-25 | the field starts with the current size as text, no error and no helper text, and this state agrees with its own validation |
| FontSizeSetting.HandleChange | client/src/main/components/SettingsDialog/FontSizeSetting.tsx:40-43 | an edit stores the new text and leaves the state consistent with its validation |
| FontSizeSetting.HandleLoseFocus | client/src/main/components/SettingsDialog/FontSizeSetting.tsx:45-49 | losing focus calls setFontSize exactly when there is no error, with parseInt of the input, which in a consistent state is a number |
| FontSizeSetting.IntegerPrefixIsAccepted | client/src/main/components/SettingsDialog/FontSizeSetting.tsx:31-33 | text made of white space, an integer and a tail not starting with a digit is accepted and reads as that integer |
| FontSizeSetting.NonNumericTextIsRefused | client/src/main/components/SettingsDialog/FontSizeSetting.tsx:34-37 | text starting with anything but white space, a sign or a digit is refused as not an integer |
| FontSizeSetting.BlurWithoutEditKeepsSize | client/src/main/components/SettingsDialog/FontSizeSetting.tsx:23-48 | leaving the field without editing sets the size it already had |
| FontSizeSetting.EditsNeverSetNaN | client/src/main/components/SettingsDialog/FontSizeSetting.tsx:40-49 | after any series of edits the state stays consistent, so losing focus never passes NaN to setFontSize |
| FontSizeSetting.BlurFollowsLastEdit | client/src/main/components/SettingsDialog/FontSizeSetting.tsx:40-48 | after edits, what losing focus does depends only on the last edit's text |
| ServerApp.NormalizePort | node_server/app.ts:117-137 | text parseInt cannot read is passed through as a pipe name, a non-negative reading is the port, a negative one is rejected |
| ServerApp.NormalizePortOfDecimal | node_server/app.ts:124-136 | a decimal integer normalizes to that port when non-negative and is rejected when negative |
| ServerApp.ListenPort | node_server/app.ts:155-156 | with PORT unset or empty the server listens on port 8055; any other PORT is normalized as given |
| ServerApp.PipeNamesPassThrough | node_server/app.ts:124-128 | a PORT that is a path is passed through untouched as a named pipe |
| ParseInt.ParseInt10 | node_server/app.ts:124 | parseInt with radix 10 is NaN exactly when no digit follows the leading white space and optional sign; a negative result needs a leading minus |
| ParseInt.IntToDecimal | client/src/main/components/SettingsDialog/FontSizeSetting.tsx:23 | the decimal text of an integer is non-empty and starts with a minus exactly for negative numbers |
| ParseInt.ParseIntOfDecimalPrefix | client/src/main/components/SettingsDialog/FontSizeSetting.tsx:31 | an integer's decimal text followed by a tail that does not start with a digit parses to that integer |
| ParseInt.ParseIntOfIntToDecimal | client/src/main/components/SettingsDialog/FontSizeSetting.tsx:23-47 | rendering an integer and parsing it back gives the integer |
| ParseInt.ParseIntIgnoresLeadingSpace | node_server/app.ts:124 | leading white space and line terminators never change what parseInt reads |
| ParseInt.DecimalValueOfNatToDecimal | client/src/main/components/SettingsDialog/FontSizeSetting.tsx:23 | the value of a natural number's decimal digits is that number |

## Left out

- Network I/O: every `fetch` in fetchMethods.ts (getProject, patchTask, patchUser, the requests of getUserData, getTestUserData, getUser, getRequest, postNewProject, patchProject, deleteProject, postNewTask, deleteTask, deleteTaskById, logout) is I/O; only the URLs they build and the reconciliation of what they return are modelled.
- patchTask and patchProject compare the returned document with `tasksAreEqual` / `projectsAreEqual`; dbTypes.ts is not part of this model.
- Cookies and `window.location`: clientCookies.ts is not part of this model; the loggedIn cookie and the address are parameters of `FetchUrls.TakesLoginPath`.
- The URLs built with template literals (patchUser, getTestUserData, deleteProject, deleteTask, deleteTaskById, logout, the GitHub endpoint) are plain concatenation and are not modelled separately.
- `new Date(...)`, `new ObjectId()` and the clock are foreign calls: the Date constructor is the parameter `newDate`, the ObjectId and the construction time are parameters of `Completables.NewCompletable`.
- The `__v` field and the index signature of Completable (arbitrary extra keys) are not modelled.
- `console.log` calls are left out.
- A callback that throws, or that calls back into the store while it is notified, is not modelled; the source would stop the remaining callbacks and leave the store already mutated.
- The order in which `Object.values` visits callbacks is not modelled: deliveries are a set.
- Aliasing: the source stores the caller's map in setProjects / setTasks and mutates the argument in parseReturnedDates / evaluateCompleted; the model works on values, so later mutation through another reference is not modelled.
- JavaScript property-key quirks (`__proto__`, inherited keys) in the maps keyed by id are not modelled.
- React rendering, hooks and the batching of state updates are left out; each handler's state updates are applied together.
- The server's Express setup, routes, database and `onListening` are left out; only `normalizePort` and the port chosen in `startServer` are modelled.
- ParseInt.ParseInt10: does not model negative zero (`parseInt("-0")` is -0, which the model reads as 0) nor the loss of precision beyond 2^53, because Numbers are doubles; strings are sequences of code points rather than UTF-16 code units, which changes nothing here since every trimmed character is in the Basic Multilingual Plane.
- ParseInt.IntToDecimal: renders every integer in plain decimal, whereas `Number.prototype.toString` switches to exponent notation from 10^21 and renders non-integral sizes with a fraction.
- FontSizeSetting.Initial: the font size is an integer; a non-integral size prop is not modelled.
- FontSizeSetting.BlurWithoutEditKeepsSize: stated for integral sizes below 10^21, for the same reason.
- ServerApp.NormalizePort: `"-0"` normalizes to port 0, whereas the source returns -0, which passes `port >= 0` as well.
- FetchUrls.BuildUrlSplicesId: stated for ids without `$`; ids with `$` patterns are covered by `FetchUrls.BuildUrl` itself and `FetchUrls.BuildUrlExpandsMatchPattern`.
- FetchUrls.ApiUrlsCarryId: stated for ids without `$` and bases without `~`, which the ObjectId ids and both server bases satisfy.

=== FILE: client_data.dfy ===
/**
 * The client's in-memory entity store and its listener registry: two maps of
 * projects and tasks keyed by `_id`, and two listener tables mapping a
 * completable id to the callbacks registered on it, keyed by listener id.
 *
 * Every operation is a pure state transition. Those that notify listeners
 * also return the set of deliveries they make; a set, because the order in
 * which `Object.values` visits the callbacks is not part of the contract.
 */
module ClientData {
  import opened Wrappers
  import opened Completables

  type CompletableId = string
  type ListenerId = string

  /** A listener callback: a JavaScript function value, known only by an opaque handle. */
  datatype Callback = Callback(handle: nat)

  type Entities = map<CompletableId, Completable>

  /** The callbacks registered on one completable, keyed by listener id. */
  type Registrations = map<ListenerId, Callback>

  type ListenerTable = map<CompletableId, Registrations>

  /**
   * The four static fields of the store. The entity maps are `None` until
   * they are first assigned (the static fields start out `undefined`); the
   * listener tables start out empty.
   */
  datatype Store = Store(
    projects: Option<Entities>,
    tasks: Option<Entities>,
    projectListeners: ListenerTable,
    taskListeners: ListenerTable)
  {
    function EntitiesOf(kind: CompletableType): Option<Entities> {
      if kind.Project? then projects else tasks
    }

    function ListenersOf(kind: CompletableType): ListenerTable {
      if kind.Project? then projectListeners else taskListeners
    }

    function WithEntities(kind: CompletableType, m: Option<Entities>): Store {
      if kind.Project? then this.(projects := m) else this.(tasks := m)
    }

    function WithListeners(kind: CompletableType, t: ListenerTable): Store {
      if kind.Project? then this.(projectListeners := t) else this.(taskListeners := t)
    }
  }

  /** The store as the page loads it. */
  const Initial: Store := Store(None, None, map[], map[])

  /** Writing to or reading from an entity map that was never assigned throws a TypeError. */
  datatype StoreError = NotLoaded(kind: CompletableType)

  /**
   * One invocation of a callback: the registration it came from
   * (`kind`, `target`, `listener`), the callback run, and its argument
   * (`None` is the `null` sent on deletion).
   */
  datatype Delivery = Delivery(
    kind: CompletableType,
    target: CompletableId,
    listener: ListenerId,
    callback: Callback,
    payload: Option<Completable>)

  /** The store after an operation, with the deliveries the operation made. */
  datatype Step = Step(store: Store, delivered: set<Delivery>)

  // ---------------------------------------------------------------------------
  // Views of the state
  // ---------------------------------------------------------------------------

  /** The callbacks registered on `(kind, id)`; none when the id has no entry. */
  function RegistrationsOf(s: Store, kind: CompletableType, id: CompletableId): Registrations {
    var table := s.ListenersOf(kind);
    if id in table then table[id] else map[]
  }

  /** `cb` is registered on `(kind, id)` under `listener`. */
  predicate Registered(s: Store, kind: CompletableType, id: CompletableId, listener: ListenerId, cb: Callback) {
    var table := s.ListenersOf(kind);
    id in table && listener in table[id] && table[id][listener] == cb
  }

  /** Two listener tables agree on every completable id other than `id`. */
  ghost predicate SameExcept(t1: ListenerTable, t2: ListenerTable, id: CompletableId) {
    forall c :: c != id ==> (c in t1 <==> c in t2) && (c in t1 ==> t1[c] == t2[c])
  }

  /**
   * `ds` sends `payload` exactly once to every callback registered on
   * `(kind, id)` in `s`, and to nothing else.
   */
  ghost predicate DeliversExactlyOnce(ds: set<Delivery>, s: Store, kind: CompletableType, id: CompletableId, payload: Option<Completable>) {
    && (forall d :: d in ds <==>
          d.kind == kind && d.target == id && d.payload == payload
          && Registered(s, kind, id, d.listener, d.callback))
    && |ds| == |RegistrationsOf(s, kind, id)|
  }

  /** Every entity is stored under its own `_id`. */
  ghost predicate KeysMatchIds(m: Entities) {
    forall id :: id in m ==> m[id].id == id
  }

  ghost predicate Valid(s: Store) {
    && (s.projects.Some? ==> KeysMatchIds(s.projects.value))
    && (s.tasks.Some? ==> KeysMatchIds(s.tasks.value))
  }

  // ---------------------------------------------------------------------------
  // Notification
  // ---------------------------------------------------------------------------

  function DeliveryTo(kind: CompletableType, id: CompletableId, regs: Registrations, payload: Option<Completable>, l: ListenerId): Delivery
    requires l in regs
  {
    Delivery(kind, id, l, regs[l], payload)
  }

  /** One delivery per registered listener: distinct listeners give distinct deliveries. */
  lemma {:induction false} DeliveryCount(kind: CompletableType, id: CompletableId, regs: Registrations, payload: Option<Completable>, keys: set<ListenerId>)
    requires keys <= regs.Keys
    ensures |set l | l in keys :: DeliveryTo(kind, id, regs, payload, l)| == |keys|
    decreases keys
  {
    if keys != {} {
      var k :| k in keys;
      var rest := keys - {k};
      DeliveryCount(kind, id, regs, payload, rest);
      var all := set l | l in keys :: DeliveryTo(kind, id, regs, payload, l);
      var others := set l | l in rest :: DeliveryTo(kind, id, regs, payload, l);
      assert all == others + {DeliveryTo(kind, id, regs, payload, k)};
      assert DeliveryTo(kind, id, regs, payload, k) !in others;
    }
  }

  /** `notifyCompletableListeners`: run every callback registered on `(kind, id)` with `payload`. */
  function Notify(s: Store, kind: CompletableType, id: CompletableId, payload: Option<Completable>): (ds: set<Delivery>)
    ensures DeliversExactlyOnce(ds, s, kind, id, payload)
    ensures RegistrationsOf(s, kind, id) == map[] ==> ds == {}
  {
    var regs := RegistrationsOf(s, kind, id);
    DeliveryCount(kind, id, regs, payload, regs.Keys);
    set l | l in regs :: DeliveryTo(kind, id, regs, payload, l)
  }

  // ---------------------------------------------------------------------------
  // Entity maps
  // ---------------------------------------------------------------------------

  /** `setProjects` / `setTasks`: replace the whole map of one kind; nobody is notified. */
  function SetAll(s: Store, kind: CompletableType, m: Entities): (r: Store)
    ensures r.EntitiesOf(kind) == Some(m)
    ensures r.EntitiesOf(kind.Other()) == s.EntitiesOf(kind.Other())
    ensures r.projectListeners == s.projectListeners && r.taskListeners == s.taskListeners
  {
    s.WithEntities(kind, Some(m))
  }

  function SetProjects(s: Store, m: Entities): (r: Store)
    ensures r == SetAll(s, Project, m)
  {
    s.(projects := Some(m))
  }

  function SetTasks(s: Store, m: Entities): (r: Store)
    ensures r == SetAll(s, Task, m)
  {
    s.(tasks := Some(m))
  }

  /** `getProjects` / `getTasks`: the whole map, `None` while it is still `undefined`. */
  function GetAll(s: Store, kind: CompletableType): (r: Option<Entities>)
    ensures kind.Project? ==> r == s.projects
    ensures kind.Task? ==> r == s.tasks
  {
    s.EntitiesOf(kind)
  }

  /**
   * `getCompletable`: the entity stored under `id`, `None` when absent
   * (`undefined`); throws when the map was never assigned.
   */
  function GetCompletable(s: Store, kind: CompletableType, id: CompletableId): (r: Result<Option<Completable>, StoreError>)
    ensures r.Failure? <==> GetAll(s, kind).None?
    ensures r.Success? ==> (r.value.Some? <==> id in GetAll(s, kind).value)
    ensures r.Success? && r.value.Some? ==> r.value.value == GetAll(s, kind).value[id]
  {
    match s.EntitiesOf(kind)
    case None => Failure(NotLoaded(kind))
    case Some(m) => Success(if id in m then Some(m[id]) else None)
  }

  /**
   * `setCompletable`: store `c` under its own id, then notify the listeners
   * registered on that id with `c`.
   */
  function SetCompletable(s: Store, kind: CompletableType, c: Completable): (r: Result<Step, StoreError>)
    ensures r.Failure? <==> s.EntitiesOf(kind).None?
    ensures r.Failure? ==> r.error == NotLoaded(kind)
    ensures r.Success? ==>
      var s' := r.value.store;
      && GetCompletable(s', kind, c.id) == Success(Some(c))
      && (forall id :: id != c.id ==> GetCompletable(s', kind, id) == GetCompletable(s, kind, id))
      && s'.EntitiesOf(kind.Other()) == s.EntitiesOf(kind.Other())
      && s'.projectListeners == s.projectListeners && s'.taskListeners == s.taskListeners
      && DeliversExactlyOnce(r.value.delivered, s, kind, c.id, Some(c))
  {
    match s.EntitiesOf(kind)
    case None => Failure(NotLoaded(kind))
    case Some(m) =>
      var s' := s.WithEntities(kind, Some(m[c.id := c]));
      Success(Step(s', Notify(s, kind, c.id, Some(c))))
  }

  /** `setProject(p)` is `setCompletable('project', p)`. */
  function SetProject(s: Store, p: Completable): (r: Result<Step, StoreError>)
    ensures r == SetCompletable(s, Project, p)
  {
    match s.projects
    case None => Failure(NotLoaded(Project))
    case Some(m) =>
      Success(Step(s.(projects := Some(m[p.id := p])), Notify(s, Project, p.id, Some(p))))
  }

  /** `setTask(t)` is `setCompletable('task', t)`. */
  function SetTask(s: Store, t: Completable): (r: Result<Step, StoreError>)
    ensures r == SetCompletable(s, Task, t)
  {
    match s.tasks
    case None => Failure(NotLoaded(Task))
    case Some(m) =>
      Success(Step(s.(tasks := Some(m[t.id := t])), Notify(s, Task, t.id, Some(t))))
  }

  /**
   * `deleteCompletable`: remove the entity, send `null` to its listeners, then
   * drop the listener entry of that id altogether.
   */
  function DeleteCompletable(s: Store, kind: CompletableType, id: CompletableId): (r: Result<Step, StoreError>)
    ensures r.Failure? <==> s.EntitiesOf(kind).None?
    ensures r.Failure? ==> r.error == NotLoaded(kind)
    ensures r.Success? ==>
      var s' := r.value.store;
      && GetCompletable(s', kind, id) == Success(None)
      && (forall other :: other != id ==> GetCompletable(s', kind, other) == GetCompletable(s, kind, other))
      && s'.EntitiesOf(kind.Other()) == s.EntitiesOf(kind.Other())
      && id !in s'.ListenersOf(kind)
      && SameExcept(s'.ListenersOf(kind), s.ListenersOf(kind), id)
      && s'.ListenersOf(kind.Other()) == s.ListenersOf(kind.Other())
      && DeliversExactlyOnce(r.value.delivered, s, kind, id, None)
  {
    if s.EntitiesOf(kind).None? then Failure(NotLoaded(kind))
    else
      // Removing the entity leaves the listener table alone, so the
      // notification that follows sees the registrations of `s`.
      var removed := RemoveEntity(s, kind, id);
      Success(Step(DropListeners(removed, kind, id), Notify(s, kind, id, None)))
  }

  /** `delete completables[id]`. */
  function RemoveEntity(s: Store, kind: CompletableType, id: CompletableId): (r: Store)
    requires s.EntitiesOf(kind).Some?
    ensures GetCompletable(r, kind, id) == Success(None)
    ensures forall other :: other != id ==> GetCompletable(r, kind, other) == GetCompletable(s, kind, other)
    ensures r.EntitiesOf(kind.Other()) == s.EntitiesOf(kind.Other())
    ensures r.projectListeners == s.projectListeners && r.taskListeners == s.taskListeners
  {
    s.WithEntities(kind, Some(s.EntitiesOf(kind).value - {id}))
  }

  /** `delete completableListeners[id]`. */
  function DropListeners(s: Store, kind: CompletableType, id: CompletableId): (r: Store)
    ensures id !in r.ListenersOf(kind)
    ensures SameExcept(r.ListenersOf(kind), s.ListenersOf(kind), id)
    ensures r.ListenersOf(kind.Other()) == s.ListenersOf(kind.Other())
    ensures r.projects == s.projects && r.tasks == s.tasks
  {
    s.WithListeners(kind, s.ListenersOf(kind) - {id})
  }

  // ---------------------------------------------------------------------------
  // Listener registry
  // ---------------------------------------------------------------------------

  /**
   * `addCompletableListener`: an upsert of `cb` under `(kind, id, listener)`,
   * creating the id's entry when it is missing.
   */
  function AddListener(s: Store, kind: CompletableType, id: CompletableId, listener: ListenerId, cb: Callback): (r: Store)
    ensures Registered(r, kind, id, listener, cb)
    ensures forall l, f :: l != listener ==> (Registered(r, kind, id, l, f) <==> Registered(s, kind, id, l, f))
    ensures |RegistrationsOf(r, kind, id)| ==
              |RegistrationsOf(s, kind, id)| + (if listener in RegistrationsOf(s, kind, id) then 0 else 1)
    ensures SameExcept(r.ListenersOf(kind), s.ListenersOf(kind), id)
    ensures r.ListenersOf(kind.Other()) == s.ListenersOf(kind.Other())
    ensures r.projects == s.projects && r.tasks == s.tasks
  {
    var table := s.ListenersOf(kind);
    var regs := if id in table then table[id] else map[];
    s.WithListeners(kind, table[id := regs[listener := cb]])
  }

  /**
   * `removeCompletableListener`: drop the one registration under
   * `(kind, id, listener)` if there is one. The id's entry stays, possibly empty.
   */
  function RemoveListener(s: Store, kind: CompletableType, id: CompletableId, listener: ListenerId): (r: Store)
    ensures listener !in RegistrationsOf(r, kind, id)
    ensures forall l, f :: l != listener ==> (Registered(r, kind, id, l, f) <==> Registered(s, kind, id, l, f))
    ensures id in r.ListenersOf(kind) <==> id in s.ListenersOf(kind)
    ensures listener !in RegistrationsOf(s, kind, id) ==> r == s
    ensures SameExcept(r.ListenersOf(kind), s.ListenersOf(kind), id)
    ensures r.ListenersOf(kind.Other()) == s.ListenersOf(kind.Other())
    ensures r.projects == s.projects && r.tasks == s.tasks
  {
    var table := s.ListenersOf(kind);
    if id in table && listener in table[id] then
      s.WithListeners(kind, table[id := table[id] - {listener}])
    else
      s
  }
}

=== FILE: client_data_properties.dfy ===
/**
 * Properties of the store that relate several operations: upsert and removal
 * laws of the listener registry, the key/id invariant, and what a sequence of
 * operations can and cannot deliver.
 */
module ClientDataProperties {
  import opened Wrappers
  import opened Completables
  import opened ClientData

  // ---------------------------------------------------------------------------
  // Listener registry laws
  // ---------------------------------------------------------------------------

  /** Re-adding a listener id replaces its callback: the last registration wins. */
  lemma AddListenerLastWins(s: Store, kind: CompletableType, id: CompletableId, l: ListenerId, f1: Callback, f2: Callback)
    ensures AddListener(AddListener(s, kind, id, l, f1), kind, id, l, f2) == AddListener(s, kind, id, l, f2)
  {
    var table := s.ListenersOf(kind);
    var regs := if id in table then table[id] else map[];
    var s1 := AddListener(s, kind, id, l, f1);
    assert s1.ListenersOf(kind) == table[id := regs[l := f1]];
    assert regs[l := f1][l := f2] == regs[l := f2];
    assert table[id := regs[l := f1]][id := regs[l := f2]] == table[id := regs[l := f2]];
  }

  /** Adding the same registration twice is the same as adding it once. */
  lemma AddListenerIdempotent(s: Store, kind: CompletableType, id: CompletableId, l: ListenerId, f: Callback)
    ensures AddListener(AddListener(s, kind, id, l, f), kind, id, l, f) == AddListener(s, kind, id, l, f)
  {
    AddListenerLastWins(s, kind, id, l, f, f);
  }

  /** Removing a listener a second time changes nothing. */
  lemma RemoveListenerIdempotent(s: Store, kind: CompletableType, id: CompletableId, l: ListenerId)
    ensures RemoveListener(RemoveListener(s, kind, id, l), kind, id, l) == RemoveListener(s, kind, id, l)
  {
  }

  /**
   * Removing a listener undoes adding it, except that an entry created by the
   * add survives the removal as an empty map of registrations.
   */
  lemma RemoveUndoesAdd(s: Store, kind: CompletableType, id: CompletableId, l: ListenerId, f: Callback)
    requires l !in RegistrationsOf(s, kind, id)
    ensures id in s.ListenersOf(kind) ==>
      RemoveListener(AddListener(s, kind, id, l, f), kind, id, l) == s
    ensures id !in s.ListenersOf(kind) ==>
      RemoveListener(AddListener(s, kind, id, l, f), kind, id, l)
        == s.WithListeners(kind, s.ListenersOf(kind)[id := map[]])
  {
    var table := s.ListenersOf(kind);
    var regs := RegistrationsOf(s, kind, id);
    var s1 := AddListener(s, kind, id, l, f);
    var t1 := table[id := regs[l := f]];
    assert s1 == s.WithListeners(kind, t1);
    assert s1.ListenersOf(kind) == t1;
    var s2 := RemoveListener(s1, kind, id, l);
    assert s2 == s1.WithListeners(kind, t1[id := regs[l := f] - {l}]);
    assert regs[l := f] - {l} == regs;
    assert t1[id := regs] == table[id := regs];
    if id in table {
      assert table[id := regs] == table;
    }
  }

  // ---------------------------------------------------------------------------
  // Entities and notifications
  // ---------------------------------------------------------------------------

  /**
   * After a deletion the id has no listener entry, so setting a completable
   * with that id again notifies nobody: no stale callback survives.
   */
  lemma DeleteThenSetNotifiesNobody(s: Store, kind: CompletableType, c: Completable)
    requires s.EntitiesOf(kind).Some?
    ensures DeleteCompletable(s, kind, c.id).Success?
    ensures var s' := DeleteCompletable(s, kind, c.id).value.store;
      SetCompletable(s', kind, c).Success? && SetCompletable(s', kind, c).value.delivered == {}
  {
    var s' := DeleteCompletable(s, kind, c.id).value.store;
    assert RegistrationsOf(s', kind, c.id) == map[];
  }

  /** With no listener registered on the id, `setCompletable` delivers nothing. */
  lemma SetWithoutListenersDeliversNothing(s: Store, kind: CompletableType, c: Completable)
    requires s.EntitiesOf(kind).Some?
    requires RegistrationsOf(s, kind, c.id) == map[]
    ensures SetCompletable(s, kind, c).Success? && SetCompletable(s, kind, c).value.delivered == {}
  {
  }

  /** `setCompletable` keeps every entity stored under its own id. */
  lemma SetCompletableKeepsValid(s: Store, kind: CompletableType, c: Completable)
    requires Valid(s) && s.EntitiesOf(kind).Some?
    ensures Valid(SetCompletable(s, kind, c).value.store)
  {
    var s' := SetCompletable(s, kind, c).value.store;
    var m' := s'.EntitiesOf(kind).value;
    forall id | id in m' ensures m'[id].id == id {
      assert GetCompletable(s', kind, id).value == Some(m'[id]);
    }
  }

  /** `deleteCompletable` keeps every entity stored under its own id. */
  lemma DeleteCompletableKeepsValid(s: Store, kind: CompletableType, id: CompletableId)
    requires Valid(s) && s.EntitiesOf(kind).Some?
    ensures Valid(DeleteCompletable(s, kind, id).value.store)
  {
    var s' := DeleteCompletable(s, kind, id).value.store;
    var m' := s'.EntitiesOf(kind).value;
    forall k | k in m' ensures m'[k].id == k {
      assert GetCompletable(s', kind, k).value == Some(m'[k]);
    }
  }

  /** `setProjects`/`setTasks` perform no check: the invariant survives exactly when the new map satisfies it. */
  lemma SetAllKeepsValid(s: Store, kind: CompletableType, m: Entities)
    requires Valid(s)
    ensures Valid(SetAll(s, kind, m)) <==> KeysMatchIds(m)
  {
  }

  /**
   * `getProjects`/`getTasks` hand back the map the last `setProjects`/`setTasks`
   * installed, and replacing one kind's map does not change what the other
   * kind's getter returns.
   */
  lemma GetAllAfterSetAll(s: Store, kind: CompletableType, m: Entities)
    ensures GetAll(SetAll(s, kind, m), kind) == Some(m)
    ensures GetAll(SetAll(s, kind, m), kind.Other()) == GetAll(s, kind.Other())
  {
  }
}

=== FILE: client_data_runs.dfy ===
/**
 * Sequences of store calls, as the single-threaded UI issues them: each call
 * runs to completion, notifications included, before the next one starts.
 * A call that throws (an entity map still unassigned) changes nothing, since
 * the throw happens at its first statement.
 */
module ClientDataRuns {
  import opened Wrappers
  import opened Completables
  import opened ClientData

  /** One public call on the store. */
  datatype Call =
    | Replace(kind: CompletableType, entities: Entities)
    | Upsert(kind: CompletableType, c: Completable)
    | Remove(kind: CompletableType, id: CompletableId)
    | Subscribe(kind: CompletableType, id: CompletableId, listener: ListenerId, callback: Callback)
    | Unsubscribe(kind: CompletableType, id: CompletableId, listener: ListenerId)
  {
    /** The call may change what `getCompletable(kind, id)` answers. */
    predicate Writes(k: CompletableType, id: CompletableId) {
      match this
      case Replace(k', _) => k' == k
      case Upsert(k', c) => k' == k && c.id == id
      case Remove(k', id') => k' == k && id' == id
      case _ => false
    }

    /** The call registers a listener on `(k, id)`. */
    predicate SubscribesTo(k: CompletableType, id: CompletableId) {
      Subscribe? && kind == k && this.id == id
    }
  }

  /**
   * One call. Only upserts and removals deliver anything, and every delivery
   * goes to a callback registered, before the call, on the id it concerns.
   */
  function Apply(s: Store, call: Call): (r: Result<Step, StoreError>)
    ensures r.Success? && r.value.delivered != {} ==> call.Upsert? || call.Remove?
    ensures r.Success? ==> forall d :: d in r.value.delivered ==>
      Registered(s, d.kind, d.target, d.listener, d.callback)
    ensures r.Failure? ==> call.Upsert? || call.Remove?
  {
    match call
    case Replace(kind, m) => Success(Step(SetAll(s, kind, m), {}))
    case Upsert(kind, c) => SetCompletable(s, kind, c)
    case Remove(kind, id) => DeleteCompletable(s, kind, id)
    case Subscribe(kind, id, l, f) => Success(Step(AddListener(s, kind, id, l, f), {}))
    case Unsubscribe(kind, id, l) => Success(Step(RemoveListener(s, kind, id, l), {}))
  }

  /** A call that throws leaves the store as it was and delivers nothing. */
  function ApplyOrSkip(s: Store, call: Call): Step {
    match Apply(s, call)
    case Success(step) => step
    case Failure(_) => Step(s, {})
  }

  /** A sequence of calls, with every delivery any of them made. */
  function Run(s: Store, calls: seq<Call>): Step
    decreases |calls|
  {
    if |calls| == 0 then Step(s, {})
    else
      var first := ApplyOrSkip(s, calls[0]);
      var rest := Run(first.store, calls[1..]);
      Step(rest.store, first.delivered + rest.delivered)
  }

  /**
   * A completable reads back unchanged until a call writes its id: a
   * replacement of its kind's map, an upsert of an entity with that id, or
   * its deletion.
   */
  lemma {:induction false} GetStableUntilWritten(s: Store, kind: CompletableType, id: CompletableId, calls: seq<Call>)
    requires forall i :: 0 <= i < |calls| ==> !calls[i].Writes(kind, id)
    ensures GetCompletable(Run(s, calls).store, kind, id) == GetCompletable(s, kind, id)
    decreases |calls|
  {
    if |calls| > 0 {
      var first := ApplyOrSkip(s, calls[0]);
      assert GetCompletable(first.store, kind, id) == GetCompletable(s, kind, id) by {
        match calls[0]
        case Replace(k, m) =>
        case Upsert(k, c) =>
        case Remove(k, other) =>
        case Subscribe(k, i, l, f) =>
        case Unsubscribe(k, i, l) =>
      }
      GetStableUntilWritten(first.store, kind, id, calls[1..]);
    }
  }

  /**
   * No replay and no stale callback: while an id has no listener entry, no
   * call except a subscription to that id can make a delivery for it.
   */
  lemma {:induction false} NoDeliveryWithoutSubscription(s: Store, kind: CompletableType, id: CompletableId, calls: seq<Call>)
    requires id !in s.ListenersOf(kind)
    requires forall i :: 0 <= i < |calls| ==> !calls[i].SubscribesTo(kind, id)
    ensures forall d :: d in Run(s, calls).delivered ==> !(d.kind == kind && d.target == id)
    decreases |calls|
  {
    if |calls| > 0 {
      var first := ApplyOrSkip(s, calls[0]);
      assert id !in first.store.ListenersOf(kind) by {
        match calls[0]
        case Replace(k, m) =>
        case Upsert(k, c) =>
        case Remove(k, other) =>
        case Subscribe(k, i, l, f) =>
          assert k != kind || i != id;
        case Unsubscribe(k, i, l) =>
      }
      NoDeliveryWithoutSubscription(first.store, kind, id, calls[1..]);
    }
  }

  /**
   * After a completable is deleted, the callbacks it had never hear of that
   * id again unless someone subscribes to it anew.
   */
  lemma DeletedStaysSilent(s: Store, kind: CompletableType, id: CompletableId, calls: seq<Call>)
    requires s.EntitiesOf(kind).Some?
    requires forall i :: 0 <= i < |calls| ==> !calls[i].SubscribesTo(kind, id)
    ensures var after := DeleteCompletable(s, kind, id).value.store;
      forall d :: d in Run(after, calls).delivered ==> !(d.kind == kind && d.target == id)
  {
    NoDeliveryWithoutSubscription(DeleteCompletable(s, kind, id).value.store, kind, id, calls);
  }

  /**
   * Two listeners on one task both receive `null` when it is deleted; a third
   * listener subscribed afterwards receives nothing retroactively, and only
   * hears of later upserts.
   */
  lemma DeleteScenario(t: Completable)
    ensures var s0 := AddListener(AddListener(SetTasks(Initial, map[t.id := t]), Task, t.id, "a", Callback(1)), Task, t.id, "b", Callback(2));
      var del := DeleteCompletable(s0, Task, t.id);
      && del.Success?
      && del.value.delivered == {Delivery(Task, t.id, "a", Callback(1), None), Delivery(Task, t.id, "b", Callback(2), None)}
      && var s1 := AddListener(del.value.store, Task, t.id, "c", Callback(3));
         SetCompletable(s1, Task, t).value.delivered == {Delivery(Task, t.id, "c", Callback(3), Some(t))}
  {
    var s0 := AddListener(AddListener(SetTasks(Initial, map[t.id := t]), Task, t.id, "a", Callback(1)), Task, t.id, "b", Callback(2));
    assert RegistrationsOf(s0, Task, t.id) == map["a" := Callback(1), "b" := Callback(2)];
    var del := DeleteCompletable(s0, Task, t.id);
    var s1 := AddListener(del.value.store, Task, t.id, "c", Callback(3));
    assert RegistrationsOf(s1, Task, t.id) == map["c" := Callback(3)];
  }
}

=== FILE: completable.dfy ===
/**
 * The Completable record, the shared shape of projects and tasks, with the
 * defaults a freshly constructed one carries.
 */
module Completables {
  import opened JsValues

  /** Which of the two entity kinds a Completable is stored as. */
  datatype CompletableType = Project | Task {

    /** The kind that is not this one. */
    function Other(): (o: CompletableType)
      ensures o != this
    {
      if Project? then Task else Project
    }
  }

  /**
   * A project or task. `id` is the document's `_id`. The fields that
   * reconciliation inspects dynamically (`completed` and the dates) are kept
   * as runtime values, because JSON from the server can hold anything there;
   * the remaining fields carry their declared types.
   */
  datatype Completable = Completable(
    id: string,
    subtasks: seq<string>,
    prereqTasks: seq<string>,
    dateCreated: JsValue,
    startDate: JsValue,
    dueDate: JsValue,
    note: string,
    title: string,
    priority: int,
    completed: JsValue,
    completedDate: JsValue,
    tags: seq<string>
  )

  /**
   * `new Completable()`. The generated ObjectId and the current clock are
   * foreign calls, so both are parameters: `id` is any string and `now` the
   * moment of construction.
   */
  function NewCompletable(id: string, now: Date): (c: Completable)
    ensures c.id == id && c.dateCreated == DateObject(now)
    ensures c.subtasks == [] && c.prereqTasks == [] && c.tags == []
    ensures c.startDate == Null && c.dueDate == Null && c.completedDate == Null
    ensures c.note == "" && c.title == ""
    ensures c.priority == 0 && c.completed == Bool(false)
  {
    Completable(id, [], [], DateObject(now), Null, Null, "", "", 0, Bool(false), Null, [])
  }
}

=== FILE: fetch_urls.dfy ===
/**
 * The pure decisions inside the client's fetch wrappers: where an id goes in
 * an API URL, which endpoint a new task is posted to, and whether the page
 * load takes the GitHub login path.
 */
module FetchUrls {
  import opened Wrappers
  import opened Completables

  // ---------------------------------------------------------------------------
  // Server base URL
  // ---------------------------------------------------------------------------

  const LocalServerUrl: string := "http://localhost:8055"
  const DeployedServerUrl: string := "https://point-spire.herokuapp.com"

  /** `baseServerUrl`, chosen by the build's `REACT_APP_ENV`. */
  function BaseServerUrl(appEnv: Option<string>): (r: string)
    ensures r == LocalServerUrl <==> appEnv == Some("LOCAL_DEV") || appEnv == Some("LOCAL")
    ensures r == LocalServerUrl || r == DeployedServerUrl
  {
    if appEnv == Some("LOCAL_DEV") || appEnv == Some("LOCAL") then LocalServerUrl else DeployedServerUrl
  }

  // ---------------------------------------------------------------------------
  // API paths (`fetchData.api`)
  // ---------------------------------------------------------------------------

  const UsersPath: string := "/api/users/"
  const TasksPath: string := "/api/tasks/"
  const ProjectsPath: string := "/api/projects/"
  const SubtasksPath: string := "/subtasks"
  /** What follows a user's id in postNewProject's URL. */
  const UserProjectsSuffix: string := "/projects"

  // ---------------------------------------------------------------------------
  // buildUrl
  // ---------------------------------------------------------------------------

  /** A `~` sits at `j` right after a `/`: where `/(?<=\/)~/` can match. */
  predicate SlashTildeAt(url: string, j: int) {
    0 < j < |url| && url[j] == '~' && url[j - 1] == '/'
  }

  /** The first match of `/(?<=\/)~/` at or after `from`. */
  function FindSlashTilde(url: string, from: nat): (r: Option<nat>)
    ensures r.Some? ==> from <= r.value && SlashTildeAt(url, r.value)
    ensures r.Some? ==> forall j :: from <= j < r.value ==> !SlashTildeAt(url, j)
    ensures r.None? ==> forall j :: from <= j ==> !SlashTildeAt(url, j)
    decreases |url| - from
  {
    if from >= |url| then None
    else if SlashTildeAt(url, from) then Some(from)
    else FindSlashTilde(url, from + 1)
  }

  /** A match with no match before it is the one the search finds. */
  lemma FirstSlashTildeIs(url: string, i: nat)
    requires SlashTildeAt(url, i)
    requires forall j :: 0 <= j < i ==> !SlashTildeAt(url, j)
    ensures FindSlashTilde(url, 0) == Some(i)
  {
  }

  /**
   * GetSubstitution for a replacement string and a pattern without capture
   * groups: `$$` is a dollar sign, `$&` the matched text, `` $` `` the text
   * before the match and `$'` the text after it; everything else, other `$`
   * sequences included, is copied literally.
   */
  function Substitute(template: string, matched: string, before: string, after: string): string
    decreases |template|
  {
    if |template| == 0 then []
    else if template[0] == '$' && |template| >= 2 && template[1] in "$&`'" then
      var piece := match template[1]
        case '$' => "$"
        case '&' => matched
        case '`' => before
        case _ => after;
      piece + Substitute(template[2..], matched, before, after)
    else [template[0]] + Substitute(template[1..], matched, before, after)
  }

  /** A replacement string with no `$` is inserted literally. */
  lemma {:induction false} SubstituteLiteral(template: string, matched: string, before: string, after: string)
    requires '$' !in template
    ensures Substitute(template, matched, before, after) == template
    decreases |template|
  {
    if |template| > 0 {
      assert template[0] != '$';
      assert '$' !in template[1..] by {
        forall k | 0 <= k < |template[1..]| ensures template[1..][k] != '$' {
          assert template[1..][k] == template[k + 1];
        }
      }
      SubstituteLiteral(template[1..], matched, before, after);
      assert [template[0]] + template[1..] == template;
    }
  }

  /**
   * `fetchData.buildUrl`: when `id` is truthy (present and non-empty) and the
   * URL has a `~` right after a `/`, the first such `~` is replaced by `id`
   * through `String.prototype.replace`; otherwise the URL is returned as is.
   */
  function BuildUrl(url: string, id: Option<string>): (r: string)
    ensures id.None? || id.value == "" ==> r == url
    ensures FindSlashTilde(url, 0).None? ==> r == url
    ensures id.Some? && id.value != "" && FindSlashTilde(url, 0).Some? ==>
      var i := FindSlashTilde(url, 0).value;
      r == url[..i] + Substitute(id.value, "~", url[..i], url[i + 1..]) + url[i + 1..]
  {
    if id.None? || id.value == "" then url
    else match FindSlashTilde(url, 0)
      case None => url
      case Some(i) => url[..i] + Substitute(id.value, "~", url[..i], url[i + 1..]) + url[i + 1..]
  }

  /**
   * For an id without `$`, buildUrl splices the id in place of the first
   * `/~`'s tilde: the prefix up to and including that `/`, then the id, then
   * everything after the `~` (later `/~` included, untouched).
   */
  lemma BuildUrlSplicesId(url: string, id: string, i: nat)
    requires id != "" && '$' !in id
    requires SlashTildeAt(url, i)
    requires forall j :: 0 <= j < i ==> !SlashTildeAt(url, j)
    ensures BuildUrl(url, Some(id)) == url[..i] + id + url[i + 1..]
  {
    FirstSlashTildeIs(url, i);
    SubstituteLiteral(id, "~", url[..i], url[i + 1..]);
  }

  /**
   * An id `$&` is not inserted literally: `replace` expands it to the matched
   * `~`, so every URL comes back unchanged, placeholder included.
   */
  lemma BuildUrlExpandsMatchPattern(url: string)
    ensures BuildUrl(url, Some("$&")) == url
  {
    MatchPatternLeavesUrl(url, "$&");
  }

  /** The `$&` case with the id as a parameter, so the proof reasons about its two characters rather than a literal. */
  lemma MatchPatternLeavesUrl(url: string, id: string)
    requires |id| == 2 && id[0] == '$' && id[1] == '&'
    ensures BuildUrl(url, Some(id)) == url
  {
    match FindSlashTilde(url, 0)
    case None =>
    case Some(i) =>
      var before := url[..i];
      var after := url[i + 1..];
      assert BuildUrl(url, Some(id)) == before + Substitute(id, "~", before, after) + after;
      assert id[2..] == [];
      assert Substitute(id, "~", before, after) == "~";
      assert before + "~" + after == url;
  }

  /**
   * A template `prefix + "~" + suffix` whose prefix ends in `/` and holds no
   * other `~` gets `id` in the slot: `prefix + id + suffix`.
   */
  lemma BuildUrlTemplate(prefix: string, suffix: string, id: string)
    requires |prefix| > 0 && prefix[|prefix| - 1] == '/' && '~' !in prefix
    requires id != "" && '$' !in id
    ensures BuildUrl(prefix + "~" + suffix, Some(id)) == prefix + id + suffix
  {
    var url := prefix + "~" + suffix;
    var i := |prefix|;
    assert SlashTildeAt(url, i);
    forall j | 0 <= j < i ensures !SlashTildeAt(url, j) {
      assert url[j] == prefix[j];
    }
    BuildUrlSplicesId(url, id, i);
    assert url[..i] == prefix;
    assert url[i + 1..] == suffix;
  }

  /**
   * The URLs the client builds with buildUrl on a base without `~` (both
   * server bases qualify): getProject and patchProject, patchTask, getUser,
   * and postNewProject put the id right after the collection path.
   */
  lemma ApiUrlsCarryId(base: string, id: string)
    requires '~' !in base
    requires id != "" && '$' !in id
    ensures BuildUrl(base + ProjectsPath + "~", Some(id)) == base + ProjectsPath + id
    ensures BuildUrl(base + TasksPath + "~", Some(id)) == base + TasksPath + id
    ensures BuildUrl(base + UsersPath + "~", Some(id)) == base + UsersPath + id
    ensures BuildUrl(base + UsersPath + "~" + UserProjectsSuffix, Some(id)) == base + UsersPath + id + UserProjectsSuffix
  {
    CollectionPathsAreSlots();
    SlotUrl(base, ProjectsPath, id);
    SlotUrl(base, TasksPath, id);
    SlotUrl(base, UsersPath, id);
    BuildUrlTemplateAt(base, UsersPath, UserProjectsSuffix, id);
  }

  /** A base, a collection path and the placeholder: the id lands in the slot. */
  lemma SlotUrl(base: string, path: string, id: string)
    requires '~' !in base && IsSlotPath(path)
    requires id != "" && '$' !in id
    ensures BuildUrl(base + path + "~", Some(id)) == base + path + id
  {
    BuildUrlTemplateAt(base, path, "", id);
    assert base + path + "~" + "" == base + path + "~";
    assert base + path + id + "" == base + path + id;
  }

  /** The API collection paths end in `/` and hold no `~`. */
  lemma CollectionPathsAreSlots()
    ensures IsSlotPath(ProjectsPath) && IsSlotPath(TasksPath) && IsSlotPath(UsersPath)
  {
    // Each path is spelled from a few letters and `/`, none of them `~`.
    assert forall k | 0 <= k < |ProjectsPath| :: ProjectsPath[k] in "/apirojects";
    assert forall k | 0 <= k < |TasksPath| :: TasksPath[k] in "/apitsk";
    assert forall k | 0 <= k < |UsersPath| :: UsersPath[k] in "/apiuser";
  }

  /** A path that can precede the `~` placeholder: it ends in `/` and has no `~` of its own. */
  predicate IsSlotPath(path: string) {
    '~' !in path && |path| > 0 && path[|path| - 1] == '/'
  }

  lemma BaseServerUrlHasNoTilde(appEnv: Option<string>)
    ensures '~' !in BaseServerUrl(appEnv)
  {
    var base := BaseServerUrl(appEnv);
    forall k | 0 <= k < |base| ensures base[k] != '~' {
      // Each base is spelled from the characters listed, none of them `~`.
      if base == LocalServerUrl {
        assert base[k] in "htp:/locas8055";
      } else {
        assert base[k] in "htps:/oin-erku.apcm";
      }
    }
  }

  lemma BuildUrlTemplateAt(base: string, path: string, suffix: string, id: string)
    requires '~' !in base && IsSlotPath(path)
    requires id != "" && '$' !in id
    ensures BuildUrl(base + path + "~" + suffix, Some(id)) == base + path + id + suffix
  {
    var prefix := base + path;
    assert '~' !in prefix by {
      forall k | 0 <= k < |prefix| ensures prefix[k] != '~' {
        if k < |base| { assert prefix[k] == base[k]; } else { assert prefix[k] == path[k - |base|]; }
      }
    }
    BuildUrlTemplate(prefix, suffix, id);
    assert base + path + "~" + suffix == prefix + "~" + suffix;
    assert base + path + id + suffix == prefix + id + suffix;
  }

  // ---------------------------------------------------------------------------
  // postNewTask
  // ---------------------------------------------------------------------------

  /** The collection a parent of the given kind lives in. */
  function CollectionPath(parentType: CompletableType): string {
    if parentType.Project? then ProjectsPath else TasksPath
  }

  /**
   * How the server reads a subtask-creation URL back: which kind of parent
   * and which parent id. `None` when the URL is not of that form.
   */
  function ParseSubtaskUrl(base: string, url: string): Option<(CompletableType, string)> {
    if |url| < |base| + |SubtasksPath| || url[..|base|] != base
       || url[|url| - |SubtasksPath|..] != SubtasksPath then None
    else
      var path := url[|base|..|url| - |SubtasksPath|];
      if |path| >= |ProjectsPath| && path[..|ProjectsPath|] == ProjectsPath then
        Some((Project, path[|ProjectsPath|..]))
      else if |path| >= |TasksPath| && path[..|TasksPath|] == TasksPath then
        Some((Task, path[|TasksPath|..]))
      else None
  }

  /**
   * The URL `postNewTask` posts to: the subtasks endpoint of the parent's
   * project when the parent is a project, of its task otherwise. Reading it
   * back recovers exactly the parent kind and id, so distinct parents never
   * share an endpoint.
   */
  function NewTaskUrl(base: string, parentType: CompletableType, parentId: string): (r: string)
    ensures ParseSubtaskUrl(base, r) == Some((parentType, parentId))
  {
    SubtaskUrlParsesBack(base, parentType, parentId);
    base + CollectionPath(parentType) + parentId + SubtasksPath
  }

  lemma SubtaskUrlParsesBack(base: string, parentType: CompletableType, parentId: string)
    ensures var r := base + CollectionPath(parentType) + parentId + SubtasksPath;
      ParseSubtaskUrl(base, r) == Some((parentType, parentId))
  {
    var path := CollectionPath(parentType);
    var r := base + path + parentId + SubtasksPath;
    assert r[..|base|] == base;
    assert r[|r| - |SubtasksPath|..] == SubtasksPath;
    assert r[|base|..|r| - |SubtasksPath|] == path + parentId;
    assert (path + parentId)[..|path|] == path;
    assert (path + parentId)[|path|..] == parentId;
    if parentType.Task? && |path + parentId| >= |ProjectsPath| {
      assert (path + parentId)[5] != ProjectsPath[5];
    }
  }

  /** Two new-task requests hit the same URL only for the same parent. */
  lemma NewTaskUrlInjective(base: string, t1: CompletableType, id1: string, t2: CompletableType, id2: string)
    requires NewTaskUrl(base, t1, id1) == NewTaskUrl(base, t2, id2)
    ensures t1 == t2 && id1 == id2
  {
  }

  // ---------------------------------------------------------------------------
  // getUserData
  // ---------------------------------------------------------------------------

  const CodeMarker: string := "?code="

  /** The code points `.` does not match in a regular expression. */
  predicate IsLineTerminator(c: char) {
    c == '\n' || c == '\r' || c as int == 0x2028 || c as int == 0x2029
  }

  predicate OccursAt(s: string, pat: string, j: int) {
    0 <= j && j + |pat| <= |s| && s[j..j + |pat|] == pat
  }

  /** The leftmost occurrence of `pat` in `s` at or after `from`. */
  function IndexOf(s: string, pat: string, from: nat): (r: Option<nat>)
    ensures r.Some? ==> from <= r.value && OccursAt(s, pat, r.value)
    ensures r.Some? ==> forall j :: from <= j < r.value ==> !OccursAt(s, pat, j)
    ensures r.None? ==> forall j :: from <= j ==> !OccursAt(s, pat, j)
    decreases |s| - from
  {
    if from + |pat| > |s| then None
    else if s[from..from + |pat|] == pat then Some(from)
    else IndexOf(s, pat, from + 1)
  }

  /** What a greedy `.*` matches: the longest prefix free of line terminators. */
  function RestOfLine(s: string): (r: string)
    ensures |r| <= |s| && r == s[..|r|]
    ensures forall k :: 0 <= k < |r| ==> !IsLineTerminator(r[k])
    ensures |r| < |s| ==> IsLineTerminator(s[|r|])
  {
    if |s| == 0 || IsLineTerminator(s[0]) then [] else [s[0]] + RestOfLine(s[1..])
  }

  /**
   * The capture of `/\?code=(.*)/` on the page's address: the text after the
   * first `?code=` up to the end of the line; `''` when there is no match.
   */
  function GithubCode(href: string): (code: string)
    ensures IndexOf(href, CodeMarker, 0).None? ==> code == ""
  {
    match IndexOf(href, CodeMarker, 0)
    case None => ""
    case Some(i) => RestOfLine(href[i + |CodeMarker|..])
  }

  /**
   * `getUserData` posts the code to the GitHub login endpoint exactly when
   * the loggedIn cookie is not `'true'` and a non-empty code follows the
   * first `?code=`; otherwise it asks for the session's user.
   */
  function TakesLoginPath(loggedInCookie: Option<string>, href: string): (r: bool)
    ensures r <==>
      && loggedInCookie != Some("true")
      && (exists i :: OccursAt(href, CodeMarker, i))
      && var i := IndexOf(href, CodeMarker, 0).value;
         i + |CodeMarker| < |href| && !IsLineTerminator(href[i + |CodeMarker|])
  {
    var code := GithubCode(href);
    match IndexOf(href, CodeMarker, 0)
    case None => false
    case Some(i) =>
      assert code == RestOfLine(href[i + |CodeMarker|..]);
      loggedInCookie != Some("true") && code != ""
  }

  /**
   * A code put after `?code=` on an address without other `?` is read back
   * whole, up to the first line terminator that follows it.
   */
  lemma GithubCodeRoundTrip(page: string, code: string, rest: string)
    requires '?' !in page
    requires forall k :: 0 <= k < |code| ==> !IsLineTerminator(code[k])
    requires |rest| == 0 || IsLineTerminator(rest[0])
    ensures GithubCode(page + CodeMarker + code + rest) == code
  {
    var href := page + CodeMarker + code + rest;
    var i := |page|;
    assert href[i..i + |CodeMarker|] == CodeMarker;
    forall j | 0 <= j < i ensures !OccursAt(href, CodeMarker, j) {
      assert href[j] == page[j] && page[j] != '?';
      if j + |CodeMarker| <= |href| {
        assert href[j..j + |CodeMarker|][0] == href[j];
      }
    }
    FirstOccurrenceIs(href, CodeMarker, i);
    assert href[i + |CodeMarker|..] == code + rest;
    RestOfLineStops(code, rest);
  }

  /** An occurrence with none before it is the one the search finds. */
  lemma FirstOccurrenceIs(s: string, pat: string, i: nat)
    requires OccursAt(s, pat, i)
    requires forall j :: 0 <= j < i ==> !OccursAt(s, pat, j)
    ensures IndexOf(s, pat, 0) == Some(i)
  {
  }

  lemma {:induction false} RestOfLineStops(line: string, rest: string)
    requires forall k :: 0 <= k < |line| ==> !IsLineTerminator(line[k])
    requires |rest| == 0 || IsLineTerminator(rest[0])
    ensures RestOfLine(line + rest) == line
    decreases |line|
  {
    if |line| > 0 {
      assert (line + rest)[1..] == line[1..] + rest;
      RestOfLineStops(line[1..], rest);
    } else {
      assert line + rest == rest;
    }
  }
}

=== FILE: font_size_setting.dfy ===
/**
 * The font-size field of the settings dialog as a pure state machine over
 * its `(input, error, helperText)` state: every edit stores the new text and
 * validates it, and losing focus passes the parsed size on only when the
 * current text is valid.
 */
module FontSizeSetting {
  import opened Wrappers
  import opened ParseInt

  const EmptyInputMessage: string := "Please enter a font size number"
  const NotIntegerMessage: string := "Please enter a non-decimal integer"

  /** The component's three pieces of state. */
  datatype Field = Field(input: string, error: bool, helperText: string)

  /** What validation decides about a text: the error flag and the helper text shown. */
  datatype Validation = Validation(error: bool, helperText: string)

  /**
   * What losing focus does: nothing, or a call of `setFontSize` with
   * `parseInt(input, 10)`, whose argument is `None` when that is NaN.
   */
  datatype BlurEffect = NoCall | SetFontSize(argument: Option<int>)

  /**
   * `validateInput`: an empty text asks for a number; a text parseInt can
   * read is accepted (even `"12.5"` or `" 7px"`); anything else asks for an
   * integer. The error flag is set exactly when parseInt yields NaN.
   */
  function ValidateInput(value: string): (v: Validation)
    ensures value == "" ==> v == Validation(true, EmptyInputMessage)
    ensures value != "" && ParseInt10(value).Some? ==> v == Validation(false, "")
    ensures value != "" && ParseInt10(value).None? ==> v == Validation(true, NotIntegerMessage)
    ensures v.error <==> ParseInt10(value).None?
  {
    if |value| == 0 then Validation(true, EmptyInputMessage)
    else if ParseInt10(value).Some? then Validation(false, "")
    else Validation(true, NotIntegerMessage)
  }

  /** The state shows the validation of its own input. */
  predicate Consistent(f: Field) {
    Validation(f.error, f.helperText) == ValidateInput(f.input)
  }

  /**
   * The state on mount: the current size rendered as text, no error, no
   * helper text. It is consistent, because a rendered integer always parses.
   */
  function Initial(fontSize: int): (f: Field)
    ensures f.input == IntToDecimal(fontSize) && !f.error && f.helperText == ""
    ensures Consistent(f)
  {
    ParseIntOfIntToDecimal(fontSize);
    Field(IntToDecimal(fontSize), false, "")
  }

  /** `handleChange`: store the new text and re-validate it, so the error always describes the latest input. */
  function HandleChange(f: Field, value: string): (r: Field)
    ensures r.input == value
    ensures Consistent(r)
    ensures r.error <==> ParseInt10(value).None?
  {
    var v := ValidateInput(value);
    Field(value, v.error, v.helperText)
  }

  /** `handleLoseFocus`: call `setFontSize(parseInt(input, 10))` only when there is no error. */
  function HandleLoseFocus(f: Field): (e: BlurEffect)
    ensures e.SetFontSize? <==> !f.error
    ensures e.SetFontSize? ==> e.argument == ParseInt10(f.input)
    ensures Consistent(f) && e.SetFontSize? ==> e.argument.Some?
  {
    if !f.error then SetFontSize(ParseInt10(f.input)) else NoCall
  }

  /**
   * parseInt reads a digit prefix, so text that merely starts with an
   * integer passes validation: leading white space and any tail that does
   * not begin with a digit are ignored (`"12.5"` reads as 12, `" 7px"` as 7).
   */
  lemma IntegerPrefixIsAccepted(ws: string, n: int, rest: string)
    requires forall i :: 0 <= i < |ws| ==> IsTrimmable(ws[i])
    requires |rest| == 0 || !IsDigit(rest[0])
    ensures ParseInt10(ws + IntToDecimal(n) + rest) == Some(n)
    ensures ValidateInput(ws + IntToDecimal(n) + rest) == Validation(false, "")
  {
    var text := IntToDecimal(n) + rest;
    var v := ws + IntToDecimal(n) + rest;
    assert v == ws + text;
    ParseIntOfDecimalPrefix(n, rest);
    ParseIntIgnoresLeadingSpace(ws, text);
    assert ParseInt10(v) == Some(n);
    assert |v| > 0;
  }

  /** Text whose first character is neither space, sign nor digit is refused as not an integer. */
  lemma NonNumericTextIsRefused(value: string)
    requires |value| > 0
    requires !IsTrimmable(value[0]) && !IsDigit(value[0]) && value[0] != '+' && value[0] != '-'
    ensures ValidateInput(value) == Validation(true, NotIntegerMessage)
  {
    assert TrimStart(value) == value;
    assert DropSign(value) == value;
  }

  /** The field after a series of edits. */
  function ApplyEdits(f: Field, edits: seq<string>): Field
    decreases |edits|
  {
    if |edits| == 0 then f else ApplyEdits(HandleChange(f, edits[0]), edits[1..])
  }

  /** Focusing and leaving the field without editing sets the size it already had. */
  lemma BlurWithoutEditKeepsSize(fontSize: int)
    ensures HandleLoseFocus(Initial(fontSize)) == SetFontSize(Some(fontSize))
  {
    ParseIntOfIntToDecimal(fontSize);
  }

  /**
   * Whatever the user types, the field stays consistent, so a blur never
   * hands `setFontSize` a NaN: it either does nothing or passes the integer
   * parsed from the latest text.
   */
  lemma {:induction false} EditsNeverSetNaN(f: Field, edits: seq<string>)
    requires Consistent(f)
    ensures Consistent(ApplyEdits(f, edits))
    ensures var g := ApplyEdits(f, edits);
      HandleLoseFocus(g) == NoCall || HandleLoseFocus(g) == SetFontSize(ParseInt10(g.input))
    ensures HandleLoseFocus(ApplyEdits(f, edits)) != SetFontSize(None)
    decreases |edits|
  {
    if |edits| > 0 {
      EditsNeverSetNaN(HandleChange(f, edits[0]), edits[1..]);
    }
  }

  /** After the last edit, the blur outcome depends on that edit's text alone. */
  lemma {:induction false} BlurFollowsLastEdit(f: Field, edits: seq<string>)
    requires |edits| > 0
    ensures ApplyEdits(f, edits).input == edits[|edits| - 1]
    ensures HandleLoseFocus(ApplyEdits(f, edits)) ==
      if ParseInt10(edits[|edits| - 1]).Some? then SetFontSize(ParseInt10(edits[|edits| - 1])) else NoCall
    decreases |edits|
  {
    if |edits| > 1 {
      BlurFollowsLastEdit(HandleChange(f, edits[0]), edits[1..]);
    }
  }
}

=== FILE: js_values.dfy ===
/**
 * The JavaScript runtime values that reach the client through JSON and that
 * the reconciliation code inspects with `typeof` and truthiness tests.
 */
module JsValues {

  /** A `Date` object: either a valid time value (milliseconds) or `Invalid Date`. */
  datatype Date = ValidDate(epochMillis: int) | InvalidDate

  /**
   * A dynamically typed field value. Numbers are kept exact (`real`), with
   * `NaN` apart; `OtherObject` stands for any object that is neither a Date
   * nor a primitive (arrays included).
   */
  datatype JsValue =
    | Undefined
    | Null
    | Bool(b: bool)
    | Num(n: real)
    | NaN
    | Str(s: string)
    | DateObject(date: Date)
    | OtherObject

  /**
   * JavaScript truthiness (ToBoolean): `undefined`, `null`, `false`, `0`,
   * `NaN` and `""` are falsy; every object, a Date included, is truthy.
   */
  predicate Truthy(v: JsValue) {
    match v
    case Undefined => false
    case Null => false
    case Bool(b) => b
    case Num(n) => n != 0.0
    case NaN => false
    case Str(s) => s != ""
    case DateObject(_) => true
    case OtherObject => true
  }

  /** `typeof v === 'boolean'`. */
  predicate IsBoolean(v: JsValue) {
    v.Bool?
  }

  /**
   * The behaviour of `new Date(x)` that the model relies on: given a Date
   * object it copies that object's time value. Every other argument is parsed
   * in a way the model leaves open.
   */
  ghost predicate CopiesDates(newDate: JsValue -> Date) {
    forall d: Date :: newDate(DateObject(d)) == d
  }
}

=== FILE: parse_int.dfy ===
/**
 * JavaScript's `parseInt(string, 10)` (section 19.2.5 of ECMA-262) and the
 * decimal rendering of an integral Number (`Number.prototype.toString()` with
 * no radix), the two conversions shared by the font-size field and the
 * server's port normalisation.
 */
module ParseInt {
  import opened Wrappers

  /**
   * The code points TrimString removes: WhiteSpace (TAB, VT, FF, SP, NBSP,
   * ZWNBSP and the Zs category) and LineTerminator (LF, CR, LS, PS).
   */
  predicate IsTrimmable(c: char) {
    var n := c as int;
    || n == 0x09 || n == 0x0B || n == 0x0C || n == 0x20 || n == 0xA0 || n == 0xFEFF
    || n == 0x1680 || (0x2000 <= n <= 0x200A) || n == 0x202F || n == 0x205F || n == 0x3000
    || n == 0x0A || n == 0x0D || n == 0x2028 || n == 0x2029
  }

  /** A radix-10 digit: only the ASCII digits count. */
  predicate IsDigit(c: char) {
    '0' <= c <= '9'
  }

  predicate AllDigits(s: string) {
    forall i :: 0 <= i < |s| ==> IsDigit(s[i])
  }

  function DigitValue(c: char): nat
    requires IsDigit(c)
  {
    (c - '0') as nat
  }

  function DigitChar(d: nat): (c: char)
    requires d < 10
    ensures IsDigit(c) && DigitValue(c) == d
  {
    '0' + d as char
  }

  /** TrimString(s, start): drops the leading white space and line terminators. */
  function TrimStart(s: string): (t: string)
    ensures |t| <= |s| && t == s[|s| - |t|..]
    ensures forall i :: 0 <= i < |s| - |t| ==> IsTrimmable(s[i])
    ensures |t| > 0 ==> !IsTrimmable(t[0])
  {
    if |s| > 0 && IsTrimmable(s[0]) then TrimStart(s[1..]) else s
  }

  /** The longest prefix of `s` made of radix-10 digits. */
  function DigitPrefix(s: string): (z: string)
    ensures |z| <= |s| && z == s[..|z|]
    ensures AllDigits(z)
    ensures |z| < |s| ==> !IsDigit(s[|z|])
  {
    if |s| > 0 && IsDigit(s[0]) then [s[0]] + DigitPrefix(s[1..]) else []
  }

  /** The mathematical value of a string of decimal digits (most significant first). */
  function DecimalValue(z: string): nat
    requires AllDigits(z)
  {
    if |z| == 0 then 0 else 10 * DecimalValue(z[..|z| - 1]) + DigitValue(z[|z| - 1])
  }

  /** The string with one leading `+` or `-` removed, as parseInt does before reading digits. */
  function DropSign(t: string): string {
    if |t| > 0 && (t[0] == '+' || t[0] == '-') then t[1..] else t
  }

  /**
   * `parseInt(s, 10)`: skip leading white space, take an optional sign, then
   * read the maximal run of decimal digits. `None` is NaN (no digits at all).
   */
  function ParseInt10(s: string): (r: Option<int>)
    ensures r.None? <==> var u := DropSign(TrimStart(s)); |u| == 0 || !IsDigit(u[0])
    ensures r.Some? && r.value < 0 ==> TrimStart(s)[0] == '-'
  {
    ParseSigned(TrimStart(s))
  }

  /** The part of parseInt that follows trimming: optional sign, then digits. */
  function ParseSigned(t: string): Option<int> {
    var z := DigitPrefix(DropSign(t));
    if |z| == 0 then None
    else if t[0] == '-' then Some(-(DecimalValue(z) as int))
    else Some(DecimalValue(z))
  }

  /** The decimal digits of a natural number, without leading zeros. */
  function NatToDecimal(n: nat): (z: string)
    ensures |z| > 0 && AllDigits(z)
    ensures |z| > 1 ==> z[0] != '0'
    decreases n
  {
    if n < 10 then [DigitChar(n)] else NatToDecimal(n / 10) + [DigitChar(n % 10)]
  }

  /**
   * `n.toString()` for an integral Number whose magnitude is below 10^21
   * (larger ones are rendered in exponent notation, which is not modelled).
   */
  function IntToDecimal(n: int): (s: string)
    ensures |s| > 0
    ensures s[0] == '-' <==> n < 0
  {
    if n < 0 then "-" + NatToDecimal(-n) else NatToDecimal(n)
  }

  /** Reading back the digits of a natural number yields that number. */
  lemma {:induction false} DecimalValueOfNatToDecimal(n: nat)
    ensures DecimalValue(NatToDecimal(n)) == n
    decreases n
  {
    var z := NatToDecimal(n);
    if n >= 10 {
      DecimalValueOfNatToDecimal(n / 10);
      assert z[..|z| - 1] == NatToDecimal(n / 10);
    }
  }

  /** The maximal digit prefix of an all-digit string followed by a non-digit is that string. */
  lemma {:induction false} DigitPrefixOfDigitsThenStop(z: string, rest: string)
    requires AllDigits(z)
    requires |rest| == 0 || !IsDigit(rest[0])
    ensures DigitPrefix(z + rest) == z
    decreases |z|
  {
    if |z| > 0 {
      assert (z + rest)[1..] == z[1..] + rest;
      DigitPrefixOfDigitsThenStop(z[1..], rest);
    }
  }

  /**
   * Rendering an integer and parsing it back is the identity, and any text
   * after the number that does not begin with a digit is ignored (so
   * `"12.5"` reads as 12 and `"7px"` as 7).
   */
  lemma ParseIntOfDecimalPrefix(n: int, rest: string)
    requires |rest| == 0 || !IsDigit(rest[0])
    ensures ParseInt10(IntToDecimal(n) + rest) == Some(n)
  {
    var m: nat := if n < 0 then -n else n;
    var z := NatToDecimal(m);
    var s := IntToDecimal(n) + rest;
    var t := if n < 0 then ['-'] + (z + rest) else z + rest;
    assert s == t;
    ParseSignedOfDigits(n < 0, z, rest);
    DecimalValueOfNatToDecimal(m);
    assert ParseSigned(t) == Some(n);
    NotTrimmedAway(t);
    assert ParseInt10(s) == ParseSigned(TrimStart(t));
  }

  /** A string that starts with a sign or a digit has nothing to trim. */
  lemma NotTrimmedAway(s: string)
    requires |s| > 0 && (s[0] == '-' || IsDigit(s[0]))
    ensures TrimStart(s) == s
  {
    assert !IsTrimmable(s[0]);
  }

  /** Reading an optional minus sign, then digits up to a non-digit. */
  lemma ParseSignedOfDigits(negative: bool, z: string, rest: string)
    requires |z| > 0 && AllDigits(z)
    requires |rest| == 0 || !IsDigit(rest[0])
    ensures var t := if negative then ['-'] + (z + rest) else z + rest;
      ParseSigned(t) == Some(if negative then -(DecimalValue(z) as int) else DecimalValue(z))
  {
    var t := if negative then ['-'] + (z + rest) else z + rest;
    assert DropSign(t) == z + rest;
    DigitPrefixOfDigitsThenStop(z, rest);
    assert t[0] == '-' <==> negative;
    ParseSignedReads(t, z, negative);
  }

  lemma ParseSignedReads(t: string, z: string, negative: bool)
    requires |z| > 0 && AllDigits(z)
    requires DigitPrefix(DropSign(t)) == z
    requires |t| > 0 && (t[0] == '-' <==> negative)
    ensures ParseSigned(t) == Some(if negative then -(DecimalValue(z) as int) else DecimalValue(z))
  {
  }

  /** The round trip `parseInt(n.toString(), 10) === n` for integral `n`. */
  lemma ParseIntOfIntToDecimal(n: int)
    ensures ParseInt10(IntToDecimal(n)) == Some(n)
  {
    ParseIntOfDecimalPrefix(n, "");
    assert IntToDecimal(n) + "" == IntToDecimal(n);
  }

  /** Leading white space and line terminators never change what parseInt reads. */
  lemma ParseIntIgnoresLeadingSpace(ws: string, s: string)
    requires forall i :: 0 <= i < |ws| ==> IsTrimmable(ws[i])
    ensures ParseInt10(ws + s) == ParseInt10(s)
  {
    TrimStartSkipsSpace(ws, s);
  }

  lemma {:induction false} TrimStartSkipsSpace(ws: string, s: string)
    requires forall i :: 0 <= i < |ws| ==> IsTrimmable(ws[i])
    ensures TrimStart(ws + s) == TrimStart(s)
    decreases |ws|
  {
    if |ws| > 0 {
      assert (ws + s)[1..] == ws[1..] + s;
      TrimStartSkipsSpace(ws[1..], s);
    } else {
      assert ws + s == s;
    }
  }
}

=== FILE: reconcile.dfy ===
/**
 * `sanitizeCompletable` and its two steps: date strings become Date objects
 * and a missing or non-boolean `completed` becomes `false`. The client
 * applies it to the task `postNewTask` gets back and to the project
 * `patchProject` gets back (there only to compare it with what was sent).
 * The requests that return the server's JSON (getProject, getUser,
 * getRequest, postNewProject, getUserData, getTestUserData, deleteProject,
 * deleteTask, deleteTaskById) return it unsanitized, and `patchTask`
 * compares its unsanitized reply, unlike `patchProject`.
 */
module Reconcile {
  import opened JsValues
  import opened Completables

  /** What a date field may hold once parsed: a falsy value left alone, or a Date. */
  predicate DateShaped(v: JsValue) {
    !Truthy(v) || v.DateObject?
  }

  /** A completable already in the shape the client works with. */
  predicate Sanitized(c: Completable) {
    IsBoolean(c.completed) && DateShaped(c.startDate) && DateShaped(c.dueDate)
  }

  /** One field as `parseReturnedDates` treats it: `new Date(v)` when `v` is truthy. */
  function ParseDateField(v: JsValue, newDate: JsValue -> Date): (r: JsValue)
    ensures Truthy(v) ==> r == DateObject(newDate(v))
    ensures !Truthy(v) ==> r == v
    ensures DateShaped(r)
  {
    if Truthy(v) then DateObject(newDate(v)) else v
  }

  /**
   * `parseReturnedDates`: rebuild `startDate` and `dueDate` as Date objects
   * when they are truthy. `newDate` is the `Date` constructor, left
   * uninterpreted. `completedDate` and every other field are left as they are.
   */
  function ParseReturnedDates(c: Completable, newDate: JsValue -> Date): (r: Completable)
    ensures Truthy(c.startDate) ==> r.startDate == DateObject(newDate(c.startDate))
    ensures !Truthy(c.startDate) ==> r.startDate == c.startDate
    ensures Truthy(c.dueDate) ==> r.dueDate == DateObject(newDate(c.dueDate))
    ensures !Truthy(c.dueDate) ==> r.dueDate == c.dueDate
    ensures r.(startDate := c.startDate, dueDate := c.dueDate) == c
    ensures DateShaped(r.startDate) && DateShaped(r.dueDate)
  {
    c.(startDate := ParseDateField(c.startDate, newDate),
       dueDate := ParseDateField(c.dueDate, newDate))
  }

  /**
   * `evaluateCompleted`: a boolean `completed` is kept, anything else
   * (absent, null, a string, a number) becomes `false`.
   */
  function EvaluateCompleted(c: Completable): (r: Completable)
    ensures IsBoolean(r.completed)
    ensures IsBoolean(c.completed) ==> r == c
    ensures !IsBoolean(c.completed) ==> r == c.(completed := Bool(false))
  {
    if c.completed.Bool? then c else c.(completed := Bool(false))
  }

  /** `sanitizeCompletable`: dates first, then `completed`. */
  function SanitizeCompletable(c: Completable, newDate: JsValue -> Date): (r: Completable)
    ensures r == EvaluateCompleted(ParseReturnedDates(c, newDate))
    ensures Sanitized(r)
    ensures r.(startDate := c.startDate, dueDate := c.dueDate, completed := c.completed) == c
  {
    var dated := ParseReturnedDates(c, newDate);
    EvaluateCompleted(dated)
  }

  /** `evaluateCompleted` is idempotent. */
  lemma EvaluateCompletedIdempotent(c: Completable)
    ensures EvaluateCompleted(EvaluateCompleted(c)) == EvaluateCompleted(c)
  {
  }

  /**
   * Because `new Date(d)` copies a Date's time value, re-parsing dates that
   * are already Date objects changes nothing: `parseReturnedDates` is
   * idempotent.
   */
  lemma ParseReturnedDatesIdempotent(c: Completable, newDate: JsValue -> Date)
    requires CopiesDates(newDate)
    ensures var once := ParseReturnedDates(c, newDate);
      ParseReturnedDates(once, newDate) == once
  {
    var once := ParseReturnedDates(c, newDate);
    if once.startDate.DateObject? {
      assert newDate(DateObject(once.startDate.date)) == once.startDate.date;
    }
    if once.dueDate.DateObject? {
      assert newDate(DateObject(once.dueDate.date)) == once.dueDate.date;
    }
  }

  /**
   * The completables sanitizing leaves alone are exactly the sanitized ones;
   * in particular sanitizing twice is the same as sanitizing once.
   */
  lemma SanitizeFixedPoints(c: Completable, newDate: JsValue -> Date)
    requires CopiesDates(newDate)
    ensures SanitizeCompletable(c, newDate) == c <==> Sanitized(c)
    ensures SanitizeCompletable(SanitizeCompletable(c, newDate), newDate) == SanitizeCompletable(c, newDate)
  {
    if Sanitized(c) {
      if c.startDate.DateObject? {
        assert newDate(DateObject(c.startDate.date)) == c.startDate.date;
      }
      if c.dueDate.DateObject? {
        assert newDate(DateObject(c.dueDate.date)) == c.dueDate.date;
      }
    }
    var once := SanitizeCompletable(c, newDate);
    if once.startDate.DateObject? {
      assert newDate(DateObject(once.startDate.date)) == once.startDate.date;
    }
    if once.dueDate.DateObject? {
      assert newDate(DateObject(once.dueDate.date)) == once.dueDate.date;
    }
  }

  /**
   * A freshly constructed Completable is already in sanitized form, whatever
   * the Date constructor does: its dates are null and `completed` is `false`.
   */
  lemma FreshCompletableIsSanitized(id: string, now: Date, newDate: JsValue -> Date)
    ensures Sanitized(NewCompletable(id, now))
    ensures SanitizeCompletable(NewCompletable(id, now), newDate) == NewCompletable(id, now)
  {
  }

  /** Sanitizing a document that omits `completed` yields `completed === false`. */
  lemma MissingCompletedBecomesFalse(c: Completable, newDate: JsValue -> Date)
    requires c.completed == Undefined
    ensures SanitizeCompletable(c, newDate).completed == Bool(false)
  {
  }
}

=== FILE: server_app.dfy ===
/** The server's port normalisation and the port it listens on. */
module ServerApp {
  import opened Wrappers
  import opened ParseInt

  /** `normalizePort`'s three outcomes: a named pipe, a port number, or `false`. */
  datatype NormalizedPort = NamedPipe(name: string) | PortNumber(port: nat) | Rejected

  /**
   * `normalizePort`: text parseInt cannot read is a named pipe and is kept
   * as is; a non-negative number is a port; a negative one is rejected.
   */
  function NormalizePort(val: string): (r: NormalizedPort)
    ensures ParseInt10(val).None? <==> r == NamedPipe(val)
    ensures r.PortNumber? <==> ParseInt10(val).Some? && ParseInt10(val).value >= 0
    ensures r.PortNumber? ==> Some(r.port as int) == ParseInt10(val)
    ensures r.Rejected? <==> ParseInt10(val).Some? && ParseInt10(val).value < 0
  {
    match ParseInt10(val)
    case None => NamedPipe(val)
    case Some(port) => if port >= 0 then PortNumber(port) else Rejected
  }

  const DefaultPort: string := "8055"

  /** `normalizePort(process.env.PORT || '8055')`: an unset or empty PORT falls back to the default. */
  function ListenPort(envPort: Option<string>): (r: NormalizedPort)
    ensures envPort.None? || envPort.value == "" ==> r == PortNumber(8055)
    ensures envPort.Some? && envPort.value != "" ==> r == NormalizePort(envPort.value)
  {
    DefaultPortIsDecimal();
    DecimalPortNormalizes(DefaultPort, 8055);
    NormalizePort(if envPort.Some? && envPort.value != "" then envPort.value else DefaultPort)
  }

  /** A port written in decimal is read back as that port; a negative number is rejected. */
  lemma NormalizePortOfDecimal(n: int)
    ensures n >= 0 ==> NormalizePort(IntToDecimal(n)) == PortNumber(n)
    ensures n < 0 ==> NormalizePort(IntToDecimal(n)) == Rejected
  {
    ParseIntOfIntToDecimal(n);
  }

  lemma DecimalPortNormalizes(text: string, n: nat)
    requires text == IntToDecimal(n)
    ensures NormalizePort(text) == PortNumber(n)
  {
    NormalizePortOfDecimal(n);
  }

  lemma DefaultPortIsDecimal()
    ensures IntToDecimal(8055) == DefaultPort
  {
    assert NatToDecimal(8) == "8";
    assert 80 / 10 == 8 && 80 % 10 == 0;
    assert NatToDecimal(80) == "8" + [DigitChar(0)];
    assert 805 / 10 == 80 && 805 % 10 == 5;
    assert NatToDecimal(805) == NatToDecimal(80) + [DigitChar(5)];
    assert 8055 / 10 == 805 && 8055 % 10 == 5;
    assert NatToDecimal(8055) == NatToDecimal(805) + [DigitChar(5)];
  }

  /** A PORT that names a pipe (no leading digits) is passed through untouched. */
  lemma PipeNamesPassThrough(name: string)
    requires |name| > 0 && name[0] == '/'
    ensures ListenPort(Some(name)) == NamedPipe(name)
  {
  }
}

=== FILE: wrappers.dfy ===
/** Option and Result, the two failure-carrying shapes used throughout the model. */
module Wrappers {

  /** A value that may be absent; `None` stands for JavaScript's `undefined` or `null`. */
  datatype Option<+T> = None | Some(value: T)

  /** The outcome of an operation that can throw. */
  datatype Result<+R, +E> = Success(value: R) | Failure(error: E)
}
